=== FILE: README.md ===
# COVID-19 reopening analysis: the table transformations, in Dafny

This project models the pure table logic of `project_script.py`, the
script that joins COVID-19 daily case data with state reopening dates and
governors' parties and charts the result. The modelled parts are:

- **Policy-date reconciliation** (`compare_date`). The policy-expiry table is
  left-merged with the NGA reopening table on `state`. Each row picks
  `np.where(reopen > expire, reopen, expire)`, and the table keeps the first
  row per state.
- **Derived columns.** These are `tot_avg_party`, `new_cases`
  (`groupby(state_name).diff(-1)`), `new_case_mean_party`, `new_case_total`,
  `after_policy` and `new_case_after`.
- **Top-25 selection.** The script drops whole-row duplicates, keeps the
  rows after the policy date and applies `nlargest(25, 'new_case_after')`.
- **Bar colouring.** A dict maps state name to party. `"republican"` gives
  `indianred`; every other value gives `darkblue`.

A table is a `seq` of record datatypes. Every nullable cell is a
`Wrappers.Option`. Dates are integer day numbers, and NaT is `None`. Counts
are `int`, and means are exact `real`s. The generic pandas operations live
in their own modules: `Tables` (column, first/last occurrence, mask filter,
`drop_duplicates`), `Joins` (left merge), `GroupBy` (`diff(-1)` and
`transform('mean')`), `Ranking` (`nlargest`) and `Dicts` (dict
comprehension). The script's own steps live in `Reopening`, `Aggregates`
and `TopStates`.

Pandas semantics the model follows:

- `merge` and `drop_duplicates` treat missing keys as equal to each other.
  The model therefore compares keys there with plain `==` on `Option`.
- `groupby` drops rows with a missing key. Such rows get a missing result
  from `diff` and from `transform`. A multi-column key counts as missing as
  soon as one of its parts is missing.
- Any comparison with NaT is false (`Dates.Later`).
- `nlargest(n, keep='first')` is modelled as returning up to `n` rows with
  a present value, best first, in the order "larger value first, then
  earlier row first". Rows with a missing value are never picked (see
  "## Left out" for pandas versions that pad with them).
- A Python dict keeps each key at the position of its first insertion and
  holds the value of its last assignment.

Points where the code does something other than what its purpose suggests,
and which the model follows as written:

- A null-safe maximum would pick the known date when the other one is NaT.
  The code uses `np.where(reopen > expire, reopen, expire)` instead, so an
  unknown expiry date gives an unknown policy date even when the reopening
  date is known. `SelectPolicyDate` models the code.
- The colour rule has no case for unexpected party values. The code colours
  every value other than `"republican"` dark blue, including a missing
  party.
- Nothing sorts the unified table by date before `diff(-1)`. The code relies
  on the incoming row order, and so does `GroupDiffNext`.

## Model

| member | source | states |
|---|---|---|
| Reopening.SelectPolicyDate | project_script.py:47 | The policy date is always one of the two inputs. When both are known it is the later one. When the reopening date is NaT it is the expiry date. When the expiry date is NaT it is NaT. |
| Reopening.CompareDateStates | project_script.py:39-48 | `Reopening.CompareDate` is the left merge, the per-row date selection, the projection to `(state, policy_date)` and `drop_duplicates(subset=['state'])`. The reconciled table it gives holds each state once, and its states are exactly the states of the expiry table. |
| Reopening.CompareDateValues | project_script.py:39-48 | A state's policy date is selected from its first expiry row and its first NGA row. It uses NaT when the state has no NGA row. |
| Reopening.CompareDateOrder | project_script.py:48 | Reconciled rows follow the order in which states first appear in the expiry table. |
| Reopening.CompareDateUniqueStates | project_script.py:39-48 | When states are unique in both tables, there is exactly one output row per expiry row, in place, carrying that row's state and selected policy date. |
| Joins.LeftJoin | project_script.py:39-40 | A left merge has at least one output row per left row. `Joins.LeftJoinRowsOf` and `Joins.JoinOneRows` give the full row content. |
| Joins.JoinOneRows | project_script.py:39-40 | A left row is paired with each of its right matches, once each and in right-table order: its block has one row per match, and it is the single row `(l, missing)` when there is no match. |
| Joins.LeftJoinRowsOf | project_script.py:39-40 | The merge's output is the output of the left rows before row i, then row i's block (`JoinOne`), then the output of the rows after it. |
| Joins.LeftJoinPairsMatch | project_script.py:39-40 | Every output row carries a left row. A present right side has the same key. A missing right side means no right row has that key. |
| Joins.LeftJoinAppend | project_script.py:39-40 | The merge works row by row in left-table order: merging a concatenation gives the concatenation of the merges. |
| Joins.LeftJoinUniqueRight | project_script.py:39-40 | When right keys are unique, the output has exactly as many rows as the left table. Row i is left row i paired with its match, or with nothing when it has none. |
| Joins.LeftJoinFirstRow | project_script.py:39-40 | The first output row with key k is the first left row with key k, paired with the first right row with key k. |
| Joins.LookupIsFirstMatch | project_script.py:39-40 | The right row joined first is the first right row with the key. When there is none, the right side is missing. |
| Joins.Matches | project_script.py:39-40 | The rows joined to a key all come from the right table and carry that key. There are none exactly when no right row has the key. `Joins.MatchesIsFilter` completes this. |
| Joins.MatchesIsFilter | project_script.py:39-40 | The matches of a key are exactly the right table masked by the key test (`Joins.HasKey`), so every right row with the key is a match, once each and in right-table order. With `Joins.JoinOneRows` and `Joins.LeftJoinRowsOf`, this means that a left row with several matches gets one output row per match. |
| Joins.LeftJoinPrefixOrder | project_script.py:39-40 | Later left rows produce later output rows. |
| Joins.LeftJoinAt | project_script.py:39-40 | Every left row is kept, in order: the output of left row i starts right after the output of the rows before it, and begins with row i paired with its first match (or with nothing). That earlier output only carries earlier left rows. |
| Tables.DropDuplicatesKeepsFirst | project_script.py:48 | After `drop_duplicates(keep='first')`, modelled by `Tables.DropDuplicates` (a row is kept exactly when no earlier row has its key), each key occurs once and the set of keys is unchanged. Each kept row is the first input row with its key, and relative order is preserved. |
| Tables.DropDuplicatesOfDistinct | project_script.py:48 | A table whose keys are already distinct is unchanged by `drop_duplicates`. |
| Tables.Filter | project_script.py:117 | The mask `df[after_policy == 1]` keeps exactly the rows that satisfy the test. |
| Tables.FilterAppend | project_script.py:117 | Mask selection works row by row, so row order is preserved. |
| GroupBy.GroupDiffNext | project_script.py:88 | `new_cases` for a row with a known state is its `positive` minus the `positive` of the next row of the same state in table order. It is missing for a state's last row, for a row with a missing state and for a missing operand. |
| GroupBy.GroupMean | project_script.py:87-92 | `transform('mean')` gives each row with a known key the mean of the present values of its group. The result is missing when the group has no values, and missing for rows with a missing key. |
| GroupBy.GroupMeanBroadcast | project_script.py:89-92 | Rows of the same group receive the same mean. Rows with a missing key receive none. |
| GroupBy.GroupMeanWithinBounds | project_script.py:89-92 | A row's `transform('mean')` value lies between any lower and upper bound of the present values of its group. The proof goes through `GroupBy.GroupValuesFrom` (each group value comes from a row of the group) and `GroupBy.MeanWithinBounds`. |
| Aggregates.NewCaseAfterWithinBounds | project_script.py:92 | A row's `new_case_after` lies between the smallest and largest known `new_cases` of the rows sharing its `(state_name, after_policy)`. More precisely, it lies between any pair of bounds on them. |
| Aggregates.AfterPolicy | project_script.py:91 | `after_policy` is 1 exactly when both dates are known and the report date is strictly later than the policy date, and 0 otherwise. A report on the policy date itself gets 0. |
| Aggregates.Enrich | project_script.py:87-92 | All six derived columns are added with the meaning given above, grouped by (date, party), state name, date, and (state name, after_policy). The original columns and the row order are unchanged. |
| Aggregates.NewCaseAfterNeedsState | project_script.py:92 | `new_case_after` is known only for rows with a known state name. |
| Ranking.BestRemaining | project_script.py:117 | Returns the best-ranked row with a present value that has not yet been taken, or reports that every such row has been taken. |
| Ranking.NLargest | project_script.py:117 | Returns at most n positions of rows with present values, best first. A ranked row left out ranks below every row taken. The result is short only when every ranked row is taken. |
| TopStates.Top25 | project_script.py:116-117 | Ranks `TopStates.Candidates`: the four projected columns with whole-row duplicates dropped, then masked to `after_policy == 1`. The chart table has at most 25 rows. Every row is an after-policy candidate with a known `new_case_after`. Values are non-increasing. Every eligible row left out has a smaller value, or an equal value and a later position. Ties keep the earlier row. Every row has a state name when the derived columns come from `Enrich`. |
| Dicts.FromPairsKeys | project_script.py:132 | `Dicts.FromPairs` is the comprehension, assigning the pairs in order. The dict's keys are the distinct keys of the zipped pairs, each once, in order of first occurrence. |
| Dicts.FromPairsValues | project_script.py:132 | Each dict key holds the value of its last occurrence. |
| Dicts.FromDistinctPairs | project_script.py:132 | With distinct keys, the dict holds exactly the pairs, in order. |
| TopStates.BarColoursSpec | project_script.py:130-139 | `TopStates.BarColours` maps `TopStates.PartyColour` over the values of the state-to-party dict. There is one colour per distinct state name. A colour is `indianred` exactly when that state's party is the string "republican". Any other party, including a missing one, gives `darkblue`. |
| TopStates.BarColoursAligned | project_script.py:130-141 | When no state name repeats, colour i belongs to bar i and is red exactly for a "republican" party. |
| TopStates.TopStatesChart | project_script.py:87-139 | The chart pipeline from the unified table gives at most 25 bars. Each bar is after-policy and has a state name, and there is one colour per distinct state name. |

## Left out

- Downloading `daily.csv` in `get_statement` and the `go_online` switch (lines 15-25) are network and file I/O.
- All CSV reads and writes (lines 36, 52, 55-57, 66, 81) are I/O. Tables are inputs and outputs of the model.
- The file registry and the loop that picks two tables (lines 28-37) are left out. `CompareDate` takes the expiry table and the NGA table directly, in the order the registry yields them.
- Date parsing with `pd.to_datetime`, including the `" 20"` year suffix and the `%Y%m%d` format (lines 42, 45, 68), depends on dateutil and locale behaviour. Parsed dates are `Option<int>` inputs, with NaT for a date that failed to parse.
- The state name/abbreviation list from the `us` package (lines 60-63) is a foreign library.
- The outer merges and the suffix and column-drop bookkeeping (lines 70-80) depend on pandas key sorting and `_x`/`_y` renaming. The unified table is an input `seq<CaseRow>`.
- The `probableCases` and `negative` columns (line 67) are not carried, because no modelled step reads them.
- The merge `indicator` column (lines 39-40) is not modelled, because line 48 drops it.
- All matplotlib and seaborn rendering (lines 95-113, 120-148) is left out, except the colour rule and its alignment with the bars.
- Floating-point means are not modelled. Means are exact `real`s.
- TopStates.BarColoursSpec: the model compares missing state names as equal, while Python dict keys that are NaN compare by identity. `Top25` shows that rows produced by `Enrich` always have a state name, so the case does not arise on that path.
- TopStates.Top25: follows the `nlargest` behaviour that never returns a row with a missing `new_case_after`. Recent pandas versions differ in two ways. When fewer than 25 candidates have a value, they fill up to 25 with rows whose value is missing. When 25 is at least the number of candidates, they sort with an unstable sort, so the order of ties is not guaranteed. Neither behaviour is modelled.
- Ranking.NLargest: the same. Missing values are never returned and ties always go to the earlier row, which is not what the padding and whole-frame sort paths of recent pandas do.

=== FILE: aggregates.dfy ===
/**
 * The derived columns added to the unified case table before plotting
 * (project_script.py, lines 87-92).
 */
module Aggregates {
  import opened Wrappers
  import opened Tables
  import opened Dates
  import opened GroupBy

  /**
   * A row of the unified table `data.csv`: the report date, the full state
   * name and governor party brought in by the merges, the cumulative
   * `positive` count and the state's reconciled policy date.
   */
  datatype CaseRow = CaseRow(
    date: Date,
    stateName: Option<string>,
    positive: Option<int>,
    policyDate: Date,
    party: Option<string>)

  /** A unified row with the derived columns appended. */
  datatype EnrichedRow = EnrichedRow(
    base: CaseRow,
    totAvgParty: Option<real>,
    newCases: Option<int>,
    newCaseMeanParty: Option<real>,
    newCaseTotal: Option<real>,
    afterPolicy: int,
    newCaseAfter: Option<real>)

  /** A numeric cell read as a real (pandas holds these columns as floats). */
  function AsReal(x: Option<int>): Option<real> {
    match x
    case None => None
    case Some(v) => Some(v as real)
  }

  /**
   * `(date > policy_date).astype(int)`: 1 exactly when both dates are known
   * and the report is strictly later than the policy date.
   */
  function AfterPolicy(date: Date, policyDate: Date): (flag: int)
    ensures flag == 0 || flag == 1
    ensures flag == 1 <==> date.Some? && policyDate.Some? && date.value > policyDate.value
  {
    if Later(date, policyDate) then 1 else 0
  }

  // Group keys and value columns of the unified table. A multi-column key is
  // missing as soon as one of its parts is.

  function DateKey(r: CaseRow): Option<int> { r.date }
  function StateKey(r: CaseRow): Option<string> { r.stateName }

  function DatePartyKey(r: CaseRow): Option<(int, string)> {
    if r.date.Some? && r.party.Some? then Some((r.date.value, r.party.value)) else None
  }

  function StateAfterKey(r: CaseRow): Option<(string, int)> {
    if r.stateName.Some? then Some((r.stateName.value, AfterPolicy(r.date, r.policyDate))) else None
  }

  function Positive(r: CaseRow): Option<int> { r.positive }
  function PositiveReal(r: CaseRow): Option<real> { AsReal(r.positive) }

  function TotAvgParty(e: EnrichedRow): Option<real> { e.totAvgParty }
  function NewCases(e: EnrichedRow): Option<int> { e.newCases }
  function NewCasesReal(e: EnrichedRow): Option<real> { AsReal(e.newCases) }
  function NewCaseMeanParty(e: EnrichedRow): Option<real> { e.newCaseMeanParty }
  function NewCaseTotal(e: EnrichedRow): Option<real> { e.newCaseTotal }
  function NewCaseAfter(e: EnrichedRow): Option<real> { e.newCaseAfter }

  /**
   * Adds `tot_avg_party`, `new_cases`, `new_case_mean_party`,
   * `new_case_total`, `after_policy` and `new_case_after` to every row,
   * leaving the original columns and the row order untouched.
   */
  method Enrich(t: seq<CaseRow>) returns (e: seq<EnrichedRow>)
    ensures |e| == |t|
    ensures forall i :: 0 <= i < |t| ==> e[i].base == t[i]
    ensures IsGroupMean(Column(t, DatePartyKey), Column(t, PositiveReal), Column(e, TotAvgParty))
    ensures IsGroupDiffNext(Column(t, StateKey), Column(t, Positive), Column(e, NewCases))
    ensures IsGroupMean(Column(t, DatePartyKey), Column(e, NewCasesReal), Column(e, NewCaseMeanParty))
    ensures IsGroupMean(Column(t, DateKey), Column(e, NewCasesReal), Column(e, NewCaseTotal))
    ensures forall i :: 0 <= i < |t| ==>
      (e[i].afterPolicy == 0 || e[i].afterPolicy == 1)
      && (e[i].afterPolicy == 1 <==>
            t[i].date.Some? && t[i].policyDate.Some? && t[i].date.value > t[i].policyDate.value)
    ensures IsGroupMean(Column(t, StateAfterKey), Column(e, NewCasesReal), Column(e, NewCaseAfter))
  {
    var tot := GroupMean(Column(t, DatePartyKey), Column(t, PositiveReal));
    var nc := GroupDiffNext(Column(t, StateKey), Column(t, Positive));
    var ncr := seq(|nc|, i requires 0 <= i < |nc| => AsReal(nc[i]));
    var ncParty := GroupMean(Column(t, DatePartyKey), ncr);
    var ncTotal := GroupMean(Column(t, DateKey), ncr);
    var ncAfter := GroupMean(Column(t, StateAfterKey), ncr);
    e := seq(|t|, i requires 0 <= i < |t| =>
      EnrichedRow(t[i], tot[i], nc[i], ncParty[i], ncTotal[i], AfterPolicy(t[i].date, t[i].policyDate), ncAfter[i]));
    assert Column(e, TotAvgParty) == tot;
    assert Column(e, NewCases) == nc;
    assert Column(e, NewCasesReal) == ncr;
    assert Column(e, NewCaseMeanParty) == ncParty;
    assert Column(e, NewCaseTotal) == ncTotal;
    assert Column(e, NewCaseAfter) == ncAfter;
  }

  /**
   * `new_case_after` is known only for rows with a known state name: rows
   * with a missing state belong to no group.
   */
  lemma NewCaseAfterNeedsState(t: seq<CaseRow>, e: seq<EnrichedRow>)
    requires |e| == |t|
    requires IsGroupMean(Column(t, StateAfterKey), Column(e, NewCasesReal), Column(e, NewCaseAfter))
    ensures forall i :: 0 <= i < |e| && e[i].newCaseAfter.Some? ==> t[i].stateName.Some?
  {
    forall i | 0 <= i < |e| && e[i].newCaseAfter.Some?
      ensures t[i].stateName.Some?
    {
      assert Column(e, NewCaseAfter)[i] == GroupMeanAt(Column(t, StateAfterKey), Column(e, NewCasesReal), i);
    }
  }

  /**
   * A row's `new_case_after` lies between any lower and upper bound of the
   * known `new_cases` of the rows sharing its `(state_name, after_policy)`.
   */
  lemma NewCaseAfterWithinBounds(t: seq<CaseRow>, e: seq<EnrichedRow>, i: int, lo: real, hi: real)
    requires |e| == |t|
    requires IsGroupMean(Column(t, StateAfterKey), Column(e, NewCasesReal), Column(e, NewCaseAfter))
    requires 0 <= i < |e| && e[i].newCaseAfter.Some?
    requires forall j :: 0 <= j < |e| && StateAfterKey(t[j]) == StateAfterKey(t[i]) && e[j].newCases.Some? ==>
      lo <= e[j].newCases.value as real <= hi
    ensures lo <= e[i].newCaseAfter.value <= hi
  {
    var keys := Column(t, StateAfterKey);
    var vals := Column(e, NewCasesReal);
    forall j | 0 <= j < |keys| && keys[j] == keys[i] && vals[j].Some?
      ensures lo <= vals[j].value <= hi
    {
      assert vals[j] == AsReal(e[j].newCases);
    }
    GroupMeanWithinBounds(keys, vals, Column(e, NewCaseAfter), i, lo, hi);
  }
}

=== FILE: dates.dfy ===
/**
 * Calendar dates as day numbers. A date column may hold NaT (`None`); any
 * comparison involving NaT is false.
 */
module Dates {
  import opened Wrappers

  /** A date cell: a day number, or NaT. */
  type Date = Option<int>

  /** `a > b` on two datetime cells: false as soon as either side is NaT. */
  predicate Later(a: Date, b: Date) {
    a.Some? && b.Some? && a.value > b.value
  }
}

=== FILE: dicts.dfy ===
/**
 * Python dictionaries built by `{k: v for k, v in pairs}`, held as an
 * insertion-ordered list of entries: a key keeps the position of its first
 * insertion and the value of its last assignment.
 */
module Dicts {
  import opened Tables

  /** The key of an entry. */
  function EntryKey<K, V>(e: (K, V)): K {
    e.0
  }

  /** `d[k] = v`: overwrite in place when `k` is present, append otherwise. */
  function Assign<K(==), V>(d: seq<(K, V)>, k: K, v: V): (d': seq<(K, V)>)
  {
    if k in Column(d, EntryKey) then d[FirstIndex(Column(d, EntryKey), k) := (k, v)]
    else d + [(k, v)]
  }

  /** The dictionary comprehension over `pairs`, assigning in order. */
  function FromPairs<K(==), V>(pairs: seq<(K, V)>): seq<(K, V)>
    decreases |pairs|
  {
    if |pairs| == 0 then []
    else
      var n := |pairs| - 1;
      Assign(FromPairs(pairs[..n]), pairs[n].0, pairs[n].1)
  }

  /** The value the comprehension leaves for key `k`: the one paired with its last occurrence. */
  function LastValue<K(==), V>(pairs: seq<(K, V)>, k: K): V
    requires k in Column(pairs, EntryKey)
  {
    pairs[LastIndex(Column(pairs, EntryKey), k)].1
  }

  /** Assigning keeps the key column when the key is present, and appends the key otherwise. */
  lemma AssignKeys<K, V>(d: seq<(K, V)>, k: K, v: V)
    ensures k in Column(d, EntryKey) ==> Column(Assign(d, k, v), EntryKey) == Column(d, EntryKey)
    ensures k !in Column(d, EntryKey) ==> Column(Assign(d, k, v), EntryKey) == Column(d, EntryKey) + [k]
  {
  }

  /**
   * The dictionary's keys are the distinct keys of `pairs` in order of first
   * occurrence, so each appears once.
   */
  lemma {:induction false} FromPairsKeys<K, V>(pairs: seq<(K, V)>)
    ensures Column(FromPairs(pairs), EntryKey) == Column(DropDuplicates(pairs, EntryKey), EntryKey)
    ensures Distinct(Column(FromPairs(pairs), EntryKey))
    ensures forall x :: x in Column(FromPairs(pairs), EntryKey) <==> x in Column(pairs, EntryKey)
    decreases |pairs|
  {
    DropDuplicatesKeys(pairs, EntryKey);
    if |pairs| > 0 {
      var n := |pairs| - 1;
      var init := pairs[..n];
      var k := pairs[n].0;
      var v := pairs[n].1;
      var d := FromPairs(init);
      var kept := DropDuplicates(init, EntryKey);
      FromPairsKeys(init);
      var ki := Column(init, EntryKey);
      var kd := Column(d, EntryKey);
      assert kd == Column(kept, EntryKey);
      assert k in kd <==> k in ki;
      ColumnPrefix(pairs, EntryKey, n);
      assert EntryKey(pairs[n]) == k;
      assert FromPairs(pairs) == Assign(d, k, v);
      AssignKeys(d, k, v);
      if k in ki {
        assert DropDuplicates(pairs, EntryKey) == kept;
      } else {
        assert DropDuplicates(pairs, EntryKey) == kept + [pairs[n]];
        ColumnAppend(kept, [pairs[n]], EntryKey);
      }
    }
  }


  /** Each key of the dictionary holds the value paired with its last occurrence in `pairs`. */
  lemma {:induction false} FromPairsValues<K, V>(pairs: seq<(K, V)>)
    ensures forall i :: 0 <= i < |FromPairs(pairs)| ==>
      FromPairs(pairs)[i].0 in Column(pairs, EntryKey)
      && FromPairs(pairs)[i].1 == LastValue(pairs, FromPairs(pairs)[i].0)
    decreases |pairs|
  {
    if |pairs| == 0 {
      return;
    }
    var n := |pairs| - 1;
    var init := pairs[..n];
    var k := pairs[n].0;
    var v := pairs[n].1;
    var d := FromPairs(init);
    FromPairsValues(init);
    FromPairsKeys(init);
    var kd := Column(d, EntryKey);
    var ki := Column(init, EntryKey);
    var kp := Column(pairs, EntryKey);
    assert kp == ki + [k];
    forall x | x in ki && x != k
      ensures x in kp && LastIndex(kp, x) == LastIndex(ki, x)
    {
      LastIndexAppend(ki, [k], x);
    }
    assert k in kp && LastIndex(kp, k) == n;
    if k in kd {
      AssignValuesPresent(pairs, d);
    } else {
      AssignValuesAbsent(pairs, d);
    }
  }

  /** The step of `FromPairsValues` when the last key is new to the dictionary. */
  lemma AssignValuesAbsent<K, V>(pairs: seq<(K, V)>, d: seq<(K, V)>)
    requires |pairs| > 0
    requires d == FromPairs(pairs[..|pairs| - 1])
    requires pairs[|pairs| - 1].0 !in Column(d, EntryKey)
    requires forall i :: 0 <= i < |d| ==>
      d[i].0 in Column(pairs[..|pairs| - 1], EntryKey)
      && d[i].1 == LastValue(pairs[..|pairs| - 1], d[i].0)
    requires forall x :: x in Column(pairs[..|pairs| - 1], EntryKey) && x != pairs[|pairs| - 1].0 ==>
      x in Column(pairs, EntryKey)
      && LastIndex(Column(pairs, EntryKey), x) == LastIndex(Column(pairs[..|pairs| - 1], EntryKey), x)
    requires LastIndex(Column(pairs, EntryKey), pairs[|pairs| - 1].0) == |pairs| - 1
    ensures forall i :: 0 <= i < |FromPairs(pairs)| ==>
      FromPairs(pairs)[i].0 in Column(pairs, EntryKey)
      && FromPairs(pairs)[i].1 == LastValue(pairs, FromPairs(pairs)[i].0)
  {
    var n := |pairs| - 1;
    var k := pairs[n].0;
    var kd := Column(d, EntryKey);
    var d' := FromPairs(pairs);
    assert d' == d + [(k, pairs[n].1)];
    forall i | 0 <= i < |d'|
      ensures d'[i].0 in Column(pairs, EntryKey) && d'[i].1 == LastValue(pairs, d'[i].0)
    {
      if i < |d| {
        assert d'[i] == d[i];
        assert kd[i] == d[i].0;
      }
    }
  }

  /** The step of `FromPairsValues` when the last key is already in the dictionary. */
  lemma AssignValuesPresent<K, V>(pairs: seq<(K, V)>, d: seq<(K, V)>)
    requires |pairs| > 0
    requires d == FromPairs(pairs[..|pairs| - 1])
    requires Distinct(Column(d, EntryKey))
    requires pairs[|pairs| - 1].0 in Column(d, EntryKey)
    requires forall i :: 0 <= i < |d| ==>
      d[i].0 in Column(pairs[..|pairs| - 1], EntryKey)
      && d[i].1 == LastValue(pairs[..|pairs| - 1], d[i].0)
    requires forall x :: x in Column(pairs[..|pairs| - 1], EntryKey) && x != pairs[|pairs| - 1].0 ==>
      x in Column(pairs, EntryKey)
      && LastIndex(Column(pairs, EntryKey), x) == LastIndex(Column(pairs[..|pairs| - 1], EntryKey), x)
    requires LastIndex(Column(pairs, EntryKey), pairs[|pairs| - 1].0) == |pairs| - 1
    ensures forall i :: 0 <= i < |FromPairs(pairs)| ==>
      FromPairs(pairs)[i].0 in Column(pairs, EntryKey)
      && FromPairs(pairs)[i].1 == LastValue(pairs, FromPairs(pairs)[i].0)
  {
    var n := |pairs| - 1;
    var k := pairs[n].0;
    var kd := Column(d, EntryKey);
    var p := FirstIndex(kd, k);
    var d' := FromPairs(pairs);
    assert d' == d[p := (k, pairs[n].1)];
    forall i | 0 <= i < |d'|
      ensures d'[i].0 in Column(pairs, EntryKey) && d'[i].1 == LastValue(pairs, d'[i].0)
    {
      if i != p {
        assert d'[i] == d[i];
        assert kd[i] != kd[p];
      }
    }
  }

  /** Assigning a key the dictionary lacks appends one entry. */
  lemma AssignAbsent<K, V>(d: seq<(K, V)>, k: K, v: V)
    requires k !in Column(d, EntryKey)
    ensures Assign(d, k, v) == d + [(k, v)]
  {
  }

  /** When the keys of `pairs` are distinct, the dictionary holds exactly the pairs, in order. */
  lemma {:induction false} FromDistinctPairs<K, V>(pairs: seq<(K, V)>)
    requires Distinct(Column(pairs, EntryKey))
    ensures FromPairs(pairs) == pairs
    decreases |pairs|
  {
    if |pairs| > 0 {
      var n := |pairs| - 1;
      var init := pairs[..n];
      var k := pairs[n].0;
      var v := pairs[n].1;
      var kp := Column(pairs, EntryKey);
      ColumnPrefix(pairs, EntryKey, n);
      DistinctInit(kp);
      assert Column(init, EntryKey) == kp[..n];
      assert kp[n] == k;
      FromDistinctPairs(init);
      assert FromPairs(pairs) == Assign(init, k, v);
      AssignAbsent(init, k, v);
      assert pairs == init + [(k, v)];
    }
  }


}

=== FILE: groupby.dfy ===
/**
 * Group-wise column operations of `df.groupby(key)[col]`. Rows whose key is
 * missing belong to no group (pandas' default `dropna=True`) and receive a
 * missing result.
 */
module GroupBy {
  import opened Wrappers

  /** Null-propagating subtraction of two numeric cells. */
  function Minus(a: Option<int>, b: Option<int>): Option<int> {
    if a.Some? && b.Some? then Some(a.value - b.value) else None
  }

  /** Row `j` is the next row after row `i` in the same group. */
  ghost predicate IsNextInGroup<K>(keys: seq<Option<K>>, i: int, j: int) {
    && 0 <= i < j < |keys|
    && keys[i].Some?
    && keys[j] == keys[i]
    && forall m :: i < m < j ==> keys[m] != keys[i]
  }

  /** No later row belongs to the same group as row `i`: it is its group's last row. */
  ghost predicate IsLastInGroup<K>(keys: seq<Option<K>>, i: int) {
    && 0 <= i < |keys|
    && forall j :: i < j < |keys| ==> keys[j] != keys[i]
  }

  /**
   * `v` is what `groupby(key)[col].diff(-1)` gives row `i`: missing for a row
   * with a missing key or for the last row of its group, otherwise the row's
   * value minus the value of the next row of its group in table order.
   */
  ghost predicate IsDiffAt<K>(keys: seq<Option<K>>, vals: seq<Option<int>>, i: int, v: Option<int>)
    requires |keys| == |vals| && 0 <= i < |keys|
  {
    && (keys[i].None? ==> v.None?)
    && (keys[i].Some? && IsLastInGroup(keys, i) ==> v.None?)
    && (forall j :: IsNextInGroup(keys, i, j) ==> v == Minus(vals[i], vals[j]))
  }

  /** `d` is the `diff(-1)` column of `vals` grouped by `keys`. */
  ghost predicate IsGroupDiffNext<K>(keys: seq<Option<K>>, vals: seq<Option<int>>, d: seq<Option<int>>)
    requires |keys| == |vals|
  {
    |d| == |keys| && forall i :: 0 <= i < |d| ==> IsDiffAt(keys, vals, i, d[i])
  }

  /**
   * Computes `diff(-1)` in one backward pass, remembering for every group the
   * value of the nearest later row seen so far.
   */
  method GroupDiffNext<K(==)>(keys: seq<Option<K>>, vals: seq<Option<int>>) returns (d: seq<Option<int>>)
    requires |keys| == |vals|
    ensures IsGroupDiffNext(keys, vals, d)
  {
    var n := |keys|;
    d := seq(n, _ => None);
    var later: map<K, Option<int>> := map[];
    ghost var at: map<K, nat> := map[];
    var i := n;
    while i > 0
      invariant 0 <= i <= n
      invariant Tracks(keys, vals, i, later, at)
      invariant DiffFrom(keys, vals, d, i)
    {
      i := i - 1;
      if keys[i].Some? {
        var k := keys[i].value;
        DiffStep(keys, vals, i, later, at);
        var v := if k in later then Minus(vals[i], later[k]) else None;
        DiffFromStep(keys, vals, d, i, v);
        d := d[i := v];
        later := later[k := vals[i]];
        at := at[k := i];
      } else {
        DiffFromStep(keys, vals, d, i, d[i]);
        assert d[i := d[i]] == d;
      }
    }
  }

  /**
   * Output state of `GroupDiffNext` after scanning rows `i..`: those rows
   * hold their `diff(-1)` value and the rows before them are still missing.
   */
  ghost predicate DiffFrom<K>(keys: seq<Option<K>>, vals: seq<Option<int>>, d: seq<Option<int>>, i: int)
    requires |keys| == |vals|
  {
    && |d| == |keys|
    && (forall j :: 0 <= j < i && j < |d| ==> d[j].None?)
    && (forall j :: i <= j < |d| && 0 <= j ==> IsDiffAt(keys, vals, j, d[j]))
  }

  /** Filling row `i` with its `diff(-1)` value extends the scanned rows to `i..`. */
  lemma DiffFromStep<K>(keys: seq<Option<K>>, vals: seq<Option<int>>, d: seq<Option<int>>, i: int, v: Option<int>)
    requires |keys| == |vals| && 0 <= i < |keys|
    requires DiffFrom(keys, vals, d, i + 1)
    requires IsDiffAt(keys, vals, i, v)
    ensures DiffFrom(keys, vals, d[i := v], i)
  {
  }

  /**
   * Loop state of `GroupDiffNext` after scanning rows `i..`: for each group
   * met so far, `at` is the position of its earliest scanned row and `later`
   * holds that row's value.
   */
  ghost predicate Tracks<K>(keys: seq<Option<K>>, vals: seq<Option<int>>, i: int, later: map<K, Option<int>>, at: map<K, nat>)
    requires |keys| == |vals|
  {
    && 0 <= i <= |keys|
    && later.Keys == at.Keys
    && (forall k :: k in at ==>
          && i <= at[k] < |keys|
          && keys[at[k]] == Some(k)
          && later[k] == vals[at[k]]
          && (forall m :: i <= m < at[k] ==> keys[m] != Some(k)))
    && (forall j :: i <= j < |keys| && keys[j].Some? ==> keys[j].value in at)
  }

  /**
   * Scanning row `i` (with a present key) gives it the difference with the
   * group's nearest later row, or nothing when there is none, and keeps the
   * loop state.
   */
  lemma DiffStep<K>(keys: seq<Option<K>>, vals: seq<Option<int>>, i: int, later: map<K, Option<int>>, at: map<K, nat>)
    requires |keys| == |vals|
    requires 0 <= i < |keys| && keys[i].Some?
    requires Tracks(keys, vals, i + 1, later, at)
    ensures Tracks(keys, vals, i, later[keys[i].value := vals[i]], at[keys[i].value := i])
    ensures IsDiffAt(keys, vals, i,
      if keys[i].value in later then Minus(vals[i], later[keys[i].value]) else None)
  {
    var k := keys[i].value;
    TracksStep(keys, vals, i, later, at);
    if k in later {
      NextInGroupUnique(keys, i, at[k]);
    }
  }

  /** Scanning row `i` (with a present key) moves its group's earliest row to `i`. */
  lemma TracksStep<K>(keys: seq<Option<K>>, vals: seq<Option<int>>, i: int, later: map<K, Option<int>>, at: map<K, nat>)
    requires |keys| == |vals|
    requires 0 <= i < |keys| && keys[i].Some?
    requires Tracks(keys, vals, i + 1, later, at)
    ensures Tracks(keys, vals, i, later[keys[i].value := vals[i]], at[keys[i].value := i])
    ensures keys[i].value in at ==> IsNextInGroup(keys, i, at[keys[i].value])
    ensures keys[i].value !in at ==> IsLastInGroup(keys, i)
  {
  }

  /** The next row of a group is unique. */
  lemma NextInGroupUnique<K>(keys: seq<Option<K>>, i: int, j: int)
    requires IsNextInGroup(keys, i, j)
    ensures forall l :: IsNextInGroup(keys, i, l) ==> l == j
  {
    forall l | IsNextInGroup(keys, i, l)
      ensures l == j
    {
      assert keys[l] == keys[i] && keys[j] == keys[i];
    }
  }

  /** Sum of a sequence of reals. */
  function Sum(xs: seq<real>): real
    decreases |xs|
  {
    if |xs| == 0 then 0.0 else Sum(xs[..|xs| - 1]) + xs[|xs| - 1]
  }

  /** pandas `mean()`: the average of the present values, missing when there are none. */
  function Mean(xs: seq<real>): Option<real> {
    if |xs| == 0 then None else Some(Sum(xs) / |xs| as real)
  }

  /** The present values of the group with key `k`, in table order. */
  function GroupValues<K(==)>(keys: seq<Option<K>>, vals: seq<Option<real>>, k: K): seq<real>
    requires |keys| == |vals|
    decreases |keys|
  {
    if |keys| == 0 then []
    else
      var n := |keys| - 1;
      var rest := GroupValues(keys[..n], vals[..n], k);
      if keys[n] == Some(k) && vals[n].Some? then rest + [vals[n].value] else rest
  }

  /** The value `groupby(key)[col].transform('mean')` gives row `i`. */
  function GroupMeanAt<K(==)>(keys: seq<Option<K>>, vals: seq<Option<real>>, i: int): Option<real>
    requires |keys| == |vals| && 0 <= i < |keys|
  {
    if keys[i].None? then None else Mean(GroupValues(keys, vals, keys[i].value))
  }

  /** `m` is the group-mean transform of `vals` grouped by `keys`. */
  ghost predicate IsGroupMean<K>(keys: seq<Option<K>>, vals: seq<Option<real>>, m: seq<Option<real>>)
    requires |keys| == |vals|
  {
    |m| == |keys| && forall i :: 0 <= i < |m| ==> m[i] == GroupMeanAt(keys, vals, i)
  }

  /**
   * Computes `transform('mean')` as pandas does: one pass accumulating a sum
   * and a count per group, then broadcasting each group's mean to its rows.
   */
  method GroupMean<K(==)>(keys: seq<Option<K>>, vals: seq<Option<real>>) returns (m: seq<Option<real>>)
    requires |keys| == |vals|
    ensures IsGroupMean(keys, vals, m)
  {
    var n := |keys|;
    var acc: map<K, (real, nat)> := map[];
    var i := 0;
    while i < n
      invariant 0 <= i <= n
      invariant forall k :: Accumulates(keys, vals, i, acc, k)
    {
      ghost var before := acc;
      acc := AddToGroup(acc, keys[i], vals[i]);
      i := i + 1;
      forall k
        ensures Accumulates(keys, vals, i, acc, k)
      {
        AccumulateStep(keys, vals, i - 1, before, k);
      }
    }
    assert keys[..n] == keys && vals[..n] == vals;
    m := Broadcast(keys, acc);
    BroadcastIsGroupMean(keys, vals, acc);
  }

  /** Gives every row the mean of its group from the per-group sums and counts. */
  function Broadcast<K(==)>(keys: seq<Option<K>>, acc: map<K, (real, nat)>): (m: seq<Option<real>>)
    ensures |m| == |keys|
  {
    seq(|keys|, j requires 0 <= j < |keys| =>
      if keys[j].Some? && keys[j].value in acc && acc[keys[j].value].1 > 0
      then Some(acc[keys[j].value].0 / acc[keys[j].value].1 as real)
      else None)
  }

  /** Broadcasting complete per-group sums and counts yields the group-mean transform. */
  lemma BroadcastIsGroupMean<K>(keys: seq<Option<K>>, vals: seq<Option<real>>, acc: map<K, (real, nat)>)
    requires |keys| == |vals|
    requires forall k :: Accumulates(keys, vals, |keys|, acc, k)
    ensures IsGroupMean(keys, vals, Broadcast(keys, acc))
  {
    var n := |keys|;
    assert keys[..n] == keys && vals[..n] == vals;
    var m := Broadcast(keys, acc);
    forall j | 0 <= j < n
      ensures m[j] == GroupMeanAt(keys, vals, j)
    {
      if keys[j].Some? {
        assert Accumulates(keys, vals, n, acc, keys[j].value);
      }
    }
  }

  /** Adds one row to the per-group running sums and counts; rows with a missing key or value add nothing. */
  function AddToGroup<K(==)>(acc: map<K, (real, nat)>, key: Option<K>, val: Option<real>): map<K, (real, nat)> {
    if key.Some? && val.Some? then
      var (s, c) := if key.value in acc then acc[key.value] else (0.0, 0);
      acc[key.value := (s + val.value, c + 1)]
    else acc
  }

  /**
   * Loop state of `GroupMean` for group `k` after rows `..i`: if the group has
   * been met, `acc` holds the sum and the (positive) count of its present
   * values; otherwise it has no present value yet.
   */
  ghost predicate Accumulates<K>(keys: seq<Option<K>>, vals: seq<Option<real>>, i: int, acc: map<K, (real, nat)>, k: K)
    requires |keys| == |vals| && 0 <= i <= |keys|
  {
    && (k in acc ==>
          && acc[k].1 > 0
          && acc[k].0 == Sum(GroupValues(keys[..i], vals[..i], k))
          && acc[k].1 == |GroupValues(keys[..i], vals[..i], k)|)
    && (k !in acc ==> |GroupValues(keys[..i], vals[..i], k)| == 0)
  }

  /** Adding row `i` to the running sums keeps group `k`'s entry that of rows `..i + 1`. */
  lemma AccumulateStep<K>(keys: seq<Option<K>>, vals: seq<Option<real>>, i: int, acc: map<K, (real, nat)>, k: K)
    requires |keys| == |vals| && 0 <= i < |keys|
    requires Accumulates(keys, vals, i, acc, k)
    ensures Accumulates(keys, vals, i + 1, AddToGroup(acc, keys[i], vals[i]), k)
  {
    GroupValuesStep(keys, vals, i, k);
    if keys[i] == Some(k) && vals[i].Some? {
      SumAppend(GroupValues(keys[..i], vals[..i], k), vals[i].value);
    }
  }

  /** The group values of rows `..i + 1` extend those of rows `..i` by row `i`'s value when it belongs to the group. */
  lemma GroupValuesStep<K>(keys: seq<Option<K>>, vals: seq<Option<real>>, i: int, k: K)
    requires |keys| == |vals| && 0 <= i < |keys|
    ensures GroupValues(keys[..i + 1], vals[..i + 1], k) ==
      if keys[i] == Some(k) && vals[i].Some?
      then GroupValues(keys[..i], vals[..i], k) + [vals[i].value]
      else GroupValues(keys[..i], vals[..i], k)
  {
    assert keys[..i + 1][..i] == keys[..i];
    assert vals[..i + 1][..i] == vals[..i];
  }

  /** Summing one more value adds it to the sum. */
  lemma SumAppend(xs: seq<real>, x: real)
    ensures Sum(xs + [x]) == Sum(xs) + x
  {
    assert (xs + [x])[..|xs|] == xs;
  }

  /** Rows of the same group receive the same mean; rows with a missing key receive none. */
  lemma GroupMeanBroadcast<K>(keys: seq<Option<K>>, vals: seq<Option<real>>, m: seq<Option<real>>)
    requires |keys| == |vals|
    requires IsGroupMean(keys, vals, m)
    ensures forall i, j :: 0 <= i < |m| && 0 <= j < |m| && keys[i] == keys[j] ==> m[i] == m[j]
    ensures forall i :: 0 <= i < |m| && keys[i].None? ==> m[i].None?
  {
  }

  /** Every value of a group comes from a row of that group holding it. */
  lemma {:induction false} GroupValuesFrom<K>(keys: seq<Option<K>>, vals: seq<Option<real>>, k: K, x: real)
    requires |keys| == |vals|
    requires x in GroupValues(keys, vals, k)
    ensures exists j :: 0 <= j < |keys| && keys[j] == Some(k) && vals[j] == Some(x)
    decreases |keys|
  {
    var n := |keys| - 1;
    var rest := GroupValues(keys[..n], vals[..n], k);
    if x in rest {
      GroupValuesFrom(keys[..n], vals[..n], k, x);
      var j :| 0 <= j < n && keys[..n][j] == Some(k) && vals[..n][j] == Some(x);
      assert keys[j] == Some(k) && vals[j] == Some(x);
    } else {
      assert keys[n] == Some(k) && vals[n] == Some(x);
    }
  }

  /**
   * A row's group mean lies between any lower and upper bound of the present
   * values of its group.
   */
  lemma GroupMeanWithinBounds<K>(keys: seq<Option<K>>, vals: seq<Option<real>>, m: seq<Option<real>>, i: int, lo: real, hi: real)
    requires |keys| == |vals|
    requires IsGroupMean(keys, vals, m)
    requires 0 <= i < |m| && m[i].Some?
    requires forall j :: 0 <= j < |keys| && keys[j] == keys[i] && vals[j].Some? ==> lo <= vals[j].value <= hi
    ensures lo <= m[i].value <= hi
  {
    var g := GroupValues(keys, vals, keys[i].value);
    forall x | x in g
      ensures lo <= x <= hi
    {
      GroupValuesFrom(keys, vals, keys[i].value, x);
    }
    MeanWithinBounds(g, lo, hi);
  }

  /** A group's mean lies between any lower and upper bound of its values. */
  lemma {:induction false} MeanWithinBounds(xs: seq<real>, lo: real, hi: real)
    requires |xs| > 0
    requires forall x :: x in xs ==> lo <= x <= hi
    ensures lo <= Mean(xs).value <= hi
  {
    SumWithinBounds(xs, lo, hi);
    var n := |xs| as real;
    assert n * lo <= Sum(xs) <= n * hi;
    var q := Sum(xs) / n;
    assert q * n == Sum(xs);
    assert (q - lo) * n >= 0.0;
    assert (hi - q) * n >= 0.0;
  }

  /** The sum of `n` values between `lo` and `hi` lies between `n * lo` and `n * hi`. */
  lemma {:induction false} SumWithinBounds(xs: seq<real>, lo: real, hi: real)
    requires forall x :: x in xs ==> lo <= x <= hi
    ensures |xs| as real * lo <= Sum(xs) <= |xs| as real * hi
    decreases |xs|
  {
    if |xs| > 0 {
      var init := xs[..|xs| - 1];
      var x := xs[|xs| - 1];
      assert forall y :: y in init ==> y in xs;
      SumWithinBounds(init, lo, hi);
      assert x in xs;
      var m := |init| as real;
      assert Sum(xs) == Sum(init) + x;
      assert |xs| as real * lo == m * lo + lo;
      assert |xs| as real * hi == m * hi + hi;
    }
  }
}

=== FILE: joins.dfy ===
/**
 * `left.merge(right, on=key, how='left')`: every left row, in order, paired
 * with each right row sharing its key (in right-table order), or with a
 * missing right side when there is none. As in pandas, missing keys
 * (`None`) match each other, so key equality is plain `==`.
 */
module Joins {
  import opened Wrappers
  import opened Tables

  /** The right rows whose key is `k`, in table order. */
  function Matches<R, K(==)>(right: seq<R>, rkey: R -> K, k: K): (m: seq<R>)
    ensures forall x :: x in m ==> x in right && rkey(x) == k
    ensures |m| == 0 <==> k !in Column(right, rkey)
    decreases |right|
  {
    if |right| == 0 then []
    else
      assert Column(right, rkey) == [rkey(right[0])] + Column(right[1..], rkey);
      (if rkey(right[0]) == k then [right[0]] else []) + Matches(right[1..], rkey, k)
  }

  /** Whether a right row carries key `k`: the merge's match test. */
  function HasKey<R, K(==)>(rkey: R -> K, k: K): R -> bool {
    x => rkey(x) == k
  }

  /**
   * Every right row with key `k` is matched, once each and in right-table
   * order: the matches are exactly the right table masked by the key test.
   */
  lemma {:induction false} MatchesIsFilter<R, K>(right: seq<R>, rkey: R -> K, k: K)
    ensures Matches(right, rkey, k) == Filter(right, HasKey(rkey, k))
    decreases |right|
  {
    if |right| > 0 {
      var p := HasKey(rkey, k);
      var head := if rkey(right[0]) == k then [right[0]] else [];
      MatchesIsFilter(right[1..], rkey, k);
      assert Matches(right, rkey, k) == head + Matches(right[1..], rkey, k);
      assert [right[0]][..0] == [];
      assert Filter([right[0]], p) == head;
      assert right == [right[0]] + right[1..];
      FilterAppend([right[0]], right[1..], p);
    }
  }

  /** The right row a left row with key `k` is joined to first, if any. */
  function Lookup<R, K(==)>(right: seq<R>, rkey: R -> K, k: K): Option<R>
  {
    var m := Matches(right, rkey, k);
    if |m| == 0 then None else Some(m[0])
  }

  /** The output rows produced by one left row. */
  function JoinOne<L, R, K(==)>(l: L, right: seq<R>, lkey: L -> K, rkey: R -> K): (out: seq<(L, Option<R>)>)
    ensures |out| >= 1
    ensures out[0] == (l, Lookup(right, rkey, lkey(l)))
    ensures forall i :: 0 <= i < |out| ==> out[i].0 == l
  {
    var m := Matches(right, rkey, lkey(l));
    if |m| == 0 then [(l, None)]
    else seq(|m|, i requires 0 <= i < |m| => (l, Some(m[i])))
  }

  /** The rows produced for one left row pair it with matching right rows only. */
  lemma JoinOneMatches<L, R, K>(l: L, right: seq<R>, lkey: L -> K, rkey: R -> K)
    ensures forall p :: p in JoinOne(l, right, lkey, rkey) ==>
      p.0 == l && (p.1.Some? ==> p.1.value in right && rkey(p.1.value) == lkey(l))
    ensures forall p :: p in JoinOne(l, right, lkey, rkey) ==>
      p.1.None? ==> lkey(l) !in Column(right, rkey)
  {
  }

  /** The left merge of `left` with `right`. */
  function LeftJoin<L, R, K(==)>(left: seq<L>, right: seq<R>, lkey: L -> K, rkey: R -> K): (out: seq<(L, Option<R>)>)
    ensures |out| >= |left|
    decreases |left|
  {
    if |left| == 0 then []
    else JoinOne(left[0], right, lkey, rkey) + LeftJoin(left[1..], right, lkey, rkey)
  }

  /**
   * Every output row carries a left row; a present right side has the same
   * key, and a missing right side means no right row has that key.
   */
  lemma {:induction false} LeftJoinPairsMatch<L, R, K>(left: seq<L>, right: seq<R>, lkey: L -> K, rkey: R -> K)
    ensures forall p :: p in LeftJoin(left, right, lkey, rkey) ==> p.0 in left
    ensures forall p :: p in LeftJoin(left, right, lkey, rkey) ==>
      p.1.Some? ==> p.1.value in right && rkey(p.1.value) == lkey(p.0)
    ensures forall p :: p in LeftJoin(left, right, lkey, rkey) ==>
      p.1.None? ==> lkey(p.0) !in Column(right, rkey)
    decreases |left|
  {
    if |left| > 0 {
      LeftJoinPairsMatch(left[1..], right, lkey, rkey);
      var head := JoinOne(left[0], right, lkey, rkey);
      var rest := LeftJoin(left[1..], right, lkey, rkey);
      assert LeftJoin(left, right, lkey, rkey) == head + rest;
      JoinOneMatches(left[0], right, lkey, rkey);
      forall p: (L, Option<R>) | p in head + rest
        ensures p.0 in left
      {
        if p in head {
          assert p.0 == left[0];
        } else {
          assert p.0 in left[1..];
        }
      }
    }
  }

  /**
   * The key column of a join output, read from its left side. This is
   * `Column` with `lkey` composed with the left projection; it is spelled out
   * because a composed lambda would be a different function value at each
   * place it is written, which the proofs about the join could not match.
   */
  function LeftKeys<L, R, K>(out: seq<(L, Option<R>)>, lkey: L -> K): (ks: seq<K>)
    ensures |ks| == |out|
    ensures forall i :: 0 <= i < |out| ==> ks[i] == lkey(out[i].0)
  {
    seq(|out|, i requires 0 <= i < |out| => lkey(out[i].0))
  }

  /** `Lookup` returns the first right row with the key, and nothing when no right row has it. */
  lemma {:induction false} LookupIsFirstMatch<R, K>(right: seq<R>, rkey: R -> K, k: K)
    ensures k in Column(right, rkey) ==>
      Lookup(right, rkey, k) == Some(right[FirstIndex(Column(right, rkey), k)])
    ensures k !in Column(right, rkey) ==> Lookup(right, rkey, k) == None
    decreases |right|
  {
    if |right| > 0 && k in Column(right, rkey) {
      var ks := Column(right, rkey);
      var rest := right[1..];
      var kr := Column(rest, rkey);
      assert ks == [rkey(right[0])] + kr;
      if rkey(right[0]) == k {
        assert Matches(right, rkey, k) == [right[0]] + Matches(rest, rkey, k);
        assert FirstIndex(ks, k) == 0;
      } else {
        assert Matches(right, rkey, k) == Matches(rest, rkey, k);
        assert k in kr;
        LookupIsFirstMatch(rest, rkey, k);
        FirstIndexAfter([rkey(right[0])], kr, k);
        assert right[1 + FirstIndex(kr, k)] == rest[FirstIndex(kr, k)];
      }
    }
  }

  /** The merge distributes over concatenation of the left table: it works row by row, in order. */
  lemma {:induction false} LeftJoinAppend<L, R, K>(a: seq<L>, b: seq<L>, right: seq<R>, lkey: L -> K, rkey: R -> K)
    ensures LeftJoin(a + b, right, lkey, rkey) == LeftJoin(a, right, lkey, rkey) + LeftJoin(b, right, lkey, rkey)
    decreases |a|
  {
    if |a| == 0 {
      assert a + b == b;
    } else {
      assert (a + b)[0] == a[0];
      assert (a + b)[1..] == a[1..] + b;
      LeftJoinAppend(a[1..], b, right, lkey, rkey);
      var h := JoinOne(a[0], right, lkey, rkey);
      calc {
        LeftJoin(a + b, right, lkey, rkey);
        h + LeftJoin(a[1..] + b, right, lkey, rkey);
        h + (LeftJoin(a[1..], right, lkey, rkey) + LeftJoin(b, right, lkey, rkey));
        (h + LeftJoin(a[1..], right, lkey, rkey)) + LeftJoin(b, right, lkey, rkey);
      }
    }
  }

  /** When right keys are unique, the merge has exactly one output row per left row, in place. */
  lemma {:induction false} LeftJoinUniqueRight<L, R, K>(left: seq<L>, right: seq<R>, lkey: L -> K, rkey: R -> K)
    requires Distinct(Column(right, rkey))
    ensures |LeftJoin(left, right, lkey, rkey)| == |left|
    ensures forall i :: 0 <= i < |left| ==>
      LeftJoin(left, right, lkey, rkey)[i] == (left[i], Lookup(right, rkey, lkey(left[i])))
    decreases |left|
  {
    if |left| > 0 {
      MatchesAtMostOne(right, rkey, lkey(left[0]));
      LeftJoinUniqueRight(left[1..], right, lkey, rkey);
    }
  }

  /** With unique right keys a key has at most one match. */
  lemma {:induction false} MatchesAtMostOne<R, K>(right: seq<R>, rkey: R -> K, k: K)
    requires Distinct(Column(right, rkey))
    ensures |Matches(right, rkey, k)| <= 1
    decreases |right|
  {
    if |right| > 0 {
      var ks := Column(right, rkey);
      assert ks == [rkey(right[0])] + Column(right[1..], rkey);
      if rkey(right[0]) == k {
        assert k !in Column(right[1..], rkey);
      } else {
        MatchesAtMostOne(right[1..], rkey, k);
      }
    }
  }

  /**
   * A left row is paired with each of its right matches, once each and in
   * right-table order, and with a missing right side when it has none.
   */
  lemma JoinOneRows<L, R, K>(l: L, right: seq<R>, lkey: L -> K, rkey: R -> K)
    ensures var f := Filter(right, HasKey(rkey, lkey(l)));
      && |JoinOne(l, right, lkey, rkey)| == (if |f| == 0 then 1 else |f|)
      && (|f| == 0 ==> JoinOne(l, right, lkey, rkey) == [(l, None)])
      && (forall j :: 0 <= j < |f| ==> JoinOne(l, right, lkey, rkey)[j] == (l, Some(f[j])))
  {
    MatchesIsFilter(right, rkey, lkey(l));
  }

  /**
   * The merge's output is the output of the left rows before `i`, then the
   * block of row `i` (one row per match), then the output of the rows after it.
   */
  lemma LeftJoinRowsOf<L, R, K>(left: seq<L>, right: seq<R>, lkey: L -> K, rkey: R -> K, i: nat)
    requires i < |left|
    ensures LeftJoin(left, right, lkey, rkey) ==
      LeftJoin(left[..i], right, lkey, rkey) + JoinOne(left[i], right, lkey, rkey) + LeftJoin(left[i + 1..], right, lkey, rkey)
  {
    assert left == left[..i] + left[i..];
    LeftJoinAppend(left[..i], left[i..], right, lkey, rkey);
    assert left[i..][1..] == left[i + 1..];
  }

  /**
   * The output of left row `i` starts right after the output of the rows
   * before it, and that earlier output only carries earlier left rows.
   */
  lemma LeftJoinAt<L, R, K>(left: seq<L>, right: seq<R>, lkey: L -> K, rkey: R -> K, i: nat)
    requires i < |left|
    ensures |LeftJoin(left[..i], right, lkey, rkey)| < |LeftJoin(left, right, lkey, rkey)|
    ensures LeftJoin(left, right, lkey, rkey)[|LeftJoin(left[..i], right, lkey, rkey)|]
      == (left[i], Lookup(right, rkey, lkey(left[i])))
    ensures forall j :: 0 <= j < |LeftJoin(left[..i], right, lkey, rkey)| ==>
      LeftJoin(left, right, lkey, rkey)[j].0 in left[..i]
  {
    var pre := LeftJoin(left[..i], right, lkey, rkey);
    var post := LeftJoin(left[i..], right, lkey, rkey);
    assert left == left[..i] + left[i..];
    LeftJoinAppend(left[..i], left[i..], right, lkey, rkey);
    assert post == JoinOne(left[i], right, lkey, rkey) + LeftJoin(left[i..][1..], right, lkey, rkey);
    assert LeftJoin(left, right, lkey, rkey) == pre + post;
    LeftJoinPairsMatch(left[..i], right, lkey, rkey);
    forall j | 0 <= j < |pre|
      ensures LeftJoin(left, right, lkey, rkey)[j].0 in left[..i]
    {
      assert pre[j] in pre;
    }
  }

  /**
   * The first output row with left key `k` comes from the first left row with
   * key `k`, paired with the first matching right row (or nothing); it sits
   * right after the output of all earlier left rows.
   */
  lemma LeftJoinFirstRow<L, R, K>(left: seq<L>, right: seq<R>, lkey: L -> K, rkey: R -> K, k: K)
    requires k in Column(left, lkey)
    ensures k in LeftKeys(LeftJoin(left, right, lkey, rkey), lkey)
    ensures FirstIndex(LeftKeys(LeftJoin(left, right, lkey, rkey), lkey), k)
      == |LeftJoin(left[..FirstIndex(Column(left, lkey), k)], right, lkey, rkey)|
    ensures LeftJoin(left, right, lkey, rkey)[FirstIndex(LeftKeys(LeftJoin(left, right, lkey, rkey), lkey), k)]
      == (left[FirstIndex(Column(left, lkey), k)], Lookup(right, rkey, k))
  {
    var i := FirstIndex(Column(left, lkey), k);
    var out := LeftJoin(left, right, lkey, rkey);
    var off := |LeftJoin(left[..i], right, lkey, rkey)|;
    LeftJoinAt(left, right, lkey, rkey, i);
    var ok := LeftKeys(out, lkey);
    assert ok[off] == k;
    forall j | 0 <= j < off
      ensures ok[j] != k
    {
      assert out[j].0 in left[..i];
      var m :| 0 <= m < i && left[..i][m] == out[j].0;
      assert Column(left, lkey)[m] == lkey(left[m]);
    }
    FirstIndexIs(ok, k, off);
  }

  /** Output offsets grow strictly with the left prefix: later left rows produce later output. */
  lemma LeftJoinPrefixOrder<L, R, K>(left: seq<L>, right: seq<R>, lkey: L -> K, rkey: R -> K, i: nat, j: nat)
    requires i <= |left| && j <= |left|
    ensures i < j <==> |LeftJoin(left[..i], right, lkey, rkey)| < |LeftJoin(left[..j], right, lkey, rkey)|
  {
    if i < j {
      assert left[..j] == left[..i] + left[i..j];
      LeftJoinAppend(left[..i], left[i..j], right, lkey, rkey);
    } else {
      assert left[..i] == left[..j] + left[j..i];
      LeftJoinAppend(left[..j], left[j..i], right, lkey, rkey);
    }
  }
}

=== FILE: ranking.dfy ===
/**
 * `nlargest(n, col, keep='first')`: the `n` rows with the largest present
 * values of `col`, largest first, an earlier row winning a tie. Rows whose
 * value is missing are never returned.
 */
module Ranking {
  import opened Wrappers

  /** A row that can be ranked: its value is present (missing values are dropped). */
  predicate Ranked(vals: seq<Option<real>>, j: int) {
    0 <= j < |vals| && vals[j].Some?
  }

  /**
   * Ranked row `i` comes before ranked row `j`: a larger value, or the same
   * value and an earlier position.
   */
  predicate Outranks(vals: seq<Option<real>>, i: int, j: int) {
    && Ranked(vals, i)
    && Ranked(vals, j)
    && (vals[i].value > vals[j].value || (vals[i].value == vals[j].value && i < j))
  }

  /** The best-ranked present row not yet in `chosen`, if any. */
  method BestRemaining(vals: seq<Option<real>>, chosen: seq<nat>) returns (best: Option<nat>)
    ensures best.Some? ==> Ranked(vals, best.value) && best.value !in chosen
    ensures best.Some? ==> forall j :: Ranked(vals, j) && j !in chosen && j != best.value ==>
      Outranks(vals, best.value, j)
    ensures best.None? ==> forall j :: Ranked(vals, j) ==> j in chosen
  {
    best := None;
    var j := 0;
    while j < |vals|
      invariant 0 <= j <= |vals|
      invariant best.Some? ==> best.value < j && Ranked(vals, best.value) && best.value !in chosen
      invariant best.Some? ==> forall l :: l < j && Ranked(vals, l) && l !in chosen && l != best.value ==>
        Outranks(vals, best.value, l)
      invariant best.None? ==> forall l :: l < j && Ranked(vals, l) ==> l in chosen
    {
      if vals[j].Some? && j !in chosen {
        if best.None? || vals[j].value > vals[best.value].value {
          best := Some(j);
        }
      }
      j := j + 1;
    }
  }

  /**
   * The positions of the `n` best-ranked present rows, best first: fewer only
   * when there are fewer present rows, and every present row left out ranks
   * below every row taken.
   */
  method NLargest(vals: seq<Option<real>>, n: nat) returns (top: seq<nat>)
    ensures |top| <= n
    ensures forall k :: 0 <= k < |top| ==> Ranked(vals, top[k])
    ensures forall k, l :: 0 <= k < l < |top| ==> Outranks(vals, top[k], top[l])
    ensures forall k, j :: 0 <= k < |top| && Ranked(vals, j) && j !in top ==> Outranks(vals, top[k], j)
    ensures |top| < n ==> forall j :: Ranked(vals, j) ==> j in top
  {
    top := [];
    var exhausted := false;
    while |top| < n && !exhausted
      invariant |top| <= n
      invariant forall k :: 0 <= k < |top| ==> Ranked(vals, top[k])
      invariant forall k, l :: 0 <= k < l < |top| ==> Outranks(vals, top[k], top[l])
      invariant forall k, j :: 0 <= k < |top| && Ranked(vals, j) && j !in top ==> Outranks(vals, top[k], j)
      invariant exhausted ==> forall j :: Ranked(vals, j) ==> j in top
      decreases n - |top|, if exhausted then 0 else 1
    {
      var best := BestRemaining(vals, top);
      if best.None? {
        exhausted := true;
      } else {
        top := top + [best.value];
      }
    }
  }
}

=== FILE: reopening.dfy ===
/**
 * `compare_date('expire', 'nga')`: reconciles each state's policy date from
 * the policy-expiry table and the NGA reopening table (project_script.py,
 * lines 32-49). Dates arrive already parsed; a date that failed to parse is
 * NaT.
 */
module Reopening {
  import opened Wrappers
  import opened Tables
  import opened Joins
  import opened Dates

  /** A row of the expiry table: `state` and the parsed `expire_date`. */
  datatype ExpireRow = ExpireRow(state: Option<string>, expireDate: Date)

  /** A row of the NGA table: `state` and the parsed `Reopen date`. */
  datatype NgaRow = NgaRow(state: Option<string>, reopenDate: Date)

  /** A row of the reconciled table `state_reopeningdate.csv`. */
  datatype PolicyRow = PolicyRow(state: Option<string>, policyDate: Date)

  function ExpireState(r: ExpireRow): Option<string> { r.state }
  function NgaState(r: NgaRow): Option<string> { r.state }
  function PolicyState(r: PolicyRow): Option<string> { r.state }

  /**
   * `np.where(reopen > expire, reopen, expire)`: the reopening date when it is
   * strictly later than the expiry date, otherwise the expiry date. A NaT on
   * either side makes the test false, so an unknown expiry date gives an
   * unknown policy date even when the reopening date is known.
   */
  function SelectPolicyDate(reopen: Date, expire: Date): (policy: Date)
    ensures policy == reopen || policy == expire
    ensures reopen.Some? && expire.Some? ==>
      policy.Some? && policy.value >= reopen.value && policy.value >= expire.value
    ensures reopen.None? ==> policy == expire
    ensures expire.None? ==> policy.None?
  {
    if Later(reopen, expire) then reopen else expire
  }

  /** The reopening date a joined row carries: NaT when the state had no NGA row. */
  function ReopenOf(match_: Option<NgaRow>): Date {
    match match_
    case None => None
    case Some(g) => g.reopenDate
  }

  /** The `(state, policy_date)` projection of one joined row. */
  function Reconcile(joined: (ExpireRow, Option<NgaRow>)): PolicyRow {
    PolicyRow(joined.0.state, SelectPolicyDate(ReopenOf(joined.1), joined.0.expireDate))
  }

  /**
   * Left-merges the expiry table with the NGA table on `state`, selects the
   * policy date per row, projects to `(state, policy_date)` and keeps the
   * first row per state.
   */
  function CompareDate(expire: seq<ExpireRow>, nga: seq<NgaRow>): seq<PolicyRow> {
    var joined := LeftJoin(expire, nga, ExpireState, NgaState);
    DropDuplicates(Column(joined, Reconcile), PolicyState)
  }

  /** The policy date `CompareDate` promises for a state of the expiry table. */
  function ExpectedPolicyDate(expire: seq<ExpireRow>, nga: seq<NgaRow>, s: Option<string>): Date
    requires s in Column(expire, ExpireState)
  {
    SelectPolicyDate(
      ReopenOf(Lookup(nga, NgaState, s)),
      expire[FirstIndex(Column(expire, ExpireState), s)].expireDate)
  }

  /** The state column of the projected join is the join's left key column. */
  lemma ReconciledKeys(expire: seq<ExpireRow>, nga: seq<NgaRow>)
    ensures Column(Column(LeftJoin(expire, nga, ExpireState, NgaState), Reconcile), PolicyState)
      == LeftKeys(LeftJoin(expire, nga, ExpireState, NgaState), ExpireState)
    ensures forall s ::
      s in LeftKeys(LeftJoin(expire, nga, ExpireState, NgaState), ExpireState) <==> s in Column(expire, ExpireState)
  {
    var joined := LeftJoin(expire, nga, ExpireState, NgaState);
    var ke := Column(expire, ExpireState);
    var kj := LeftKeys(joined, ExpireState);
    LeftJoinPairsMatch(expire, nga, ExpireState, NgaState);
    forall s
      ensures s in kj <==> s in ke
    {
      if s in ke {
        LeftJoinFirstRow(expire, nga, ExpireState, NgaState, s);
      }
      if s in kj {
        var m := FirstIndex(kj, s);
        assert joined[m] in joined;
        var x :| 0 <= x < |expire| && expire[x] == joined[m].0;
        assert ke[x] == s;
      }
    }
  }

  /** The reconciled table holds each state once, and exactly the states of the expiry table. */
  lemma CompareDateStates(expire: seq<ExpireRow>, nga: seq<NgaRow>)
    ensures Distinct(Column(CompareDate(expire, nga), PolicyState))
    ensures forall s :: s in Column(CompareDate(expire, nga), PolicyState) <==> s in Column(expire, ExpireState)
  {
    var joined := LeftJoin(expire, nga, ExpireState, NgaState);
    ReconciledKeys(expire, nga);
    DropDuplicatesKeepsFirst(Column(joined, Reconcile), PolicyState);
  }

  /**
   * A state's policy date combines its first expiry row with its first NGA
   * row (NaT when it has none).
   */
  lemma CompareDateValues(expire: seq<ExpireRow>, nga: seq<NgaRow>)
    ensures forall i :: 0 <= i < |CompareDate(expire, nga)| ==>
      CompareDate(expire, nga)[i].state in Column(expire, ExpireState)
      && CompareDate(expire, nga)[i].policyDate
         == ExpectedPolicyDate(expire, nga, CompareDate(expire, nga)[i].state)
  {
    var joined := LeftJoin(expire, nga, ExpireState, NgaState);
    var policies := Column(joined, Reconcile);
    var r := CompareDate(expire, nga);
    ReconciledKeys(expire, nga);
    DropDuplicatesKeepsFirst(policies, PolicyState);
    forall i | 0 <= i < |r|
      ensures r[i].state in Column(expire, ExpireState)
      ensures r[i].policyDate == ExpectedPolicyDate(expire, nga, r[i].state)
    {
      var s := r[i].state;
      assert s == Column(r, PolicyState)[i];
      LeftJoinFirstRow(expire, nga, ExpireState, NgaState, s);
    }
  }

  /** Reconciled rows follow the order in which states first appear in the expiry table. */
  lemma CompareDateOrder(expire: seq<ExpireRow>, nga: seq<NgaRow>)
    ensures forall i, j :: 0 <= i < j < |CompareDate(expire, nga)| ==>
      CompareDate(expire, nga)[i].state in Column(expire, ExpireState)
      && CompareDate(expire, nga)[j].state in Column(expire, ExpireState)
      && FirstIndex(Column(expire, ExpireState), CompareDate(expire, nga)[i].state)
         < FirstIndex(Column(expire, ExpireState), CompareDate(expire, nga)[j].state)
  {
    var joined := LeftJoin(expire, nga, ExpireState, NgaState);
    var policies := Column(joined, Reconcile);
    var r := CompareDate(expire, nga);
    var ke := Column(expire, ExpireState);
    ReconciledKeys(expire, nga);
    DropDuplicatesKeepsFirst(policies, PolicyState);
    forall i, j | 0 <= i < j < |r|
      ensures r[i].state in ke && r[j].state in ke
      ensures FirstIndex(ke, r[i].state) < FirstIndex(ke, r[j].state)
    {
      var s := r[i].state;
      var t := r[j].state;
      assert s == Column(r, PolicyState)[i];
      assert t == Column(r, PolicyState)[j];
      LeftJoinFirstRow(expire, nga, ExpireState, NgaState, s);
      LeftJoinFirstRow(expire, nga, ExpireState, NgaState, t);
      LeftJoinPrefixOrder(expire, nga, ExpireState, NgaState, FirstIndex(ke, s), FirstIndex(ke, t));
    }
  }

  /**
   * When each state occurs once in each table, the reconciled table has one
   * row per expiry row, in place, each carrying that row's state and the
   * policy date selected from it and the state's NGA row (if any).
   */
  lemma CompareDateUniqueStates(expire: seq<ExpireRow>, nga: seq<NgaRow>)
    requires Distinct(Column(expire, ExpireState))
    requires Distinct(Column(nga, NgaState))
    ensures |CompareDate(expire, nga)| == |expire|
    ensures forall i :: 0 <= i < |expire| ==>
      CompareDate(expire, nga)[i] == PolicyRow(
        expire[i].state,
        SelectPolicyDate(ReopenOf(Lookup(nga, NgaState, expire[i].state)), expire[i].expireDate))
  {
    var joined := LeftJoin(expire, nga, ExpireState, NgaState);
    var policies := Column(joined, Reconcile);
    LeftJoinUniqueRight(expire, nga, ExpireState, NgaState);
    assert Column(policies, PolicyState) == Column(expire, ExpireState);
    DropDuplicatesOfDistinct(policies, PolicyState);
  }
}

=== FILE: tables.dfy ===
/**
 * Row-order operations on tables held as sequences of records: column
 * extraction, first/last occurrence, boolean-mask filtering and
 * `drop_duplicates(keep='first')`.
 */
module Tables {

  /** The values of one column (a key function applied to every row). */
  function Column<T, K>(rows: seq<T>, key: T -> K): (ks: seq<K>)
    ensures |ks| == |rows|
    ensures forall i :: 0 <= i < |rows| ==> ks[i] == key(rows[i])
  {
    seq(|rows|, i requires 0 <= i < |rows| => key(rows[i]))
  }

  /** No value occurs twice. */
  predicate Distinct<K(==)>(ks: seq<K>) {
    forall i, j :: 0 <= i < j < |ks| ==> ks[i] != ks[j]
  }

  /** Position of the first occurrence of `k`. */
  function FirstIndex<K(==)>(ks: seq<K>, k: K): (i: nat)
    requires k in ks
    ensures i < |ks| && ks[i] == k
    ensures forall j :: 0 <= j < i ==> ks[j] != k
  {
    if ks[0] == k then 0 else 1 + FirstIndex(ks[1..], k)
  }

  /** Position of the last occurrence of `k`. */
  function LastIndex<K(==)>(ks: seq<K>, k: K): (i: nat)
    requires k in ks
    ensures i < |ks| && ks[i] == k
    ensures forall j :: i < j < |ks| ==> ks[j] != k
  {
    if ks[|ks| - 1] == k then |ks| - 1 else LastIndex(ks[..|ks| - 1], k)
  }

  /** A position holding `k` with no earlier `k` is the first index of `k`. */
  lemma FirstIndexIs<K>(ks: seq<K>, k: K, i: nat)
    requires i < |ks| && ks[i] == k
    requires forall j :: 0 <= j < i ==> ks[j] != k
    ensures FirstIndex(ks, k) == i
  {
    var f := FirstIndex(ks, k);
    assert ks[f] == k;
  }

  /** Appending rows does not move the first occurrence of a key already present. */
  lemma FirstIndexAppend<K>(a: seq<K>, b: seq<K>, k: K)
    requires k in a
    ensures k in a + b
    ensures FirstIndex(a + b, k) == FirstIndex(a, k)
  {
    var i := FirstIndex(a, k);
    assert (a + b)[i] == k;
    FirstIndexIs(a + b, k, i);
  }

  /** A key absent from `a` first occurs in `a + b` where it first occurs in `b`. */
  lemma FirstIndexAfter<K>(a: seq<K>, b: seq<K>, k: K)
    requires k !in a && k in b
    ensures k in a + b
    ensures FirstIndex(a + b, k) == |a| + FirstIndex(b, k)
  {
    var i := FirstIndex(b, k);
    assert (a + b)[|a| + i] == k;
    forall j | 0 <= j < |a| + i
      ensures (a + b)[j] != k
    {
      if j < |a| {
        assert (a + b)[j] == a[j];
      } else {
        assert (a + b)[j] == b[j - |a|];
      }
    }
    FirstIndexIs(a + b, k, |a| + i);
  }

  /** Appending rows that avoid `k` does not move the last occurrence of `k`. */
  lemma LastIndexAppend<K>(a: seq<K>, b: seq<K>, k: K)
    requires k in a && k !in b
    ensures k in a + b
    ensures LastIndex(a + b, k) == LastIndex(a, k)
  {
    var i := LastIndex(a, k);
    var l := LastIndex(a + b, k);
    assert (a + b)[i] == k;
    assert forall j :: |a| <= j < |a + b| ==> (a + b)[j] == b[j - |a|];
    assert forall j :: 0 <= j < |a| ==> (a + b)[j] == a[j];
  }

  /** The column of a prefix is the prefix of the column. */
  lemma ColumnPrefix<T, K>(rows: seq<T>, key: T -> K, n: nat)
    requires n <= |rows|
    ensures Column(rows[..n], key) == Column(rows, key)[..n]
  {
  }

  /** Dropping the last value of a distinct sequence leaves it distinct and without that value. */
  lemma DistinctInit<K>(ks: seq<K>)
    requires Distinct(ks) && |ks| > 0
    ensures Distinct(ks[..|ks| - 1])
    ensures ks[|ks| - 1] !in ks[..|ks| - 1]
  {
    var n := |ks| - 1;
    forall j | 0 <= j < n
      ensures ks[..n][j] != ks[n]
    {
      assert ks[..n][j] == ks[j];
    }
  }

  /** The column of a concatenation is the concatenation of the columns. */
  lemma ColumnAppend<T, K>(a: seq<T>, b: seq<T>, key: T -> K)
    ensures Column(a + b, key) == Column(a, key) + Column(b, key)
  {
  }

  /**
   * Boolean-mask selection `df[mask]`: the rows satisfying `keep`, in
   * table order.
   */
  function Filter<T>(rows: seq<T>, keep: T -> bool): (r: seq<T>)
    ensures |r| <= |rows|
    ensures forall x :: x in r ==> x in rows && keep(x)
    ensures forall x :: x in rows && keep(x) ==> x in r
    decreases |rows|
  {
    if |rows| == 0 then []
    else
      var init := rows[..|rows| - 1];
      var last := rows[|rows| - 1];
      assert rows == init + [last];
      if keep(last) then Filter(init, keep) + [last] else Filter(init, keep)
  }

  /** Filtering works row by row: selection commutes with concatenation, so order is kept. */
  lemma {:induction false} FilterAppend<T>(a: seq<T>, b: seq<T>, keep: T -> bool)
    ensures Filter(a + b, keep) == Filter(a, keep) + Filter(b, keep)
    decreases |b|
  {
    if |b| == 0 {
      assert a + b == a;
    } else {
      var bi := b[..|b| - 1];
      assert (a + b)[..|a + b| - 1] == a + bi;
      assert (a + b)[|a + b| - 1] == b[|b| - 1];
      FilterAppend(a, bi, keep);
    }
  }

  /**
   * `drop_duplicates(subset=key, keep='first')`: a row is kept exactly when
   * no earlier row has the same key.
   */
  function DropDuplicates<T, K(==)>(rows: seq<T>, key: T -> K): (r: seq<T>)
    decreases |rows|
  {
    if |rows| == 0 then []
    else
      var init := rows[..|rows| - 1];
      var last := rows[|rows| - 1];
      var kept := DropDuplicates(init, key);
      if key(last) in Column(init, key) then kept else kept + [last]
  }

  /**
   * The result of `DropDuplicates` holds each key once, holds exactly the keys
   * of the input, each kept row is the first input row with its key, and
   * kept rows appear in the order of those first occurrences.
   */
  lemma DropDuplicatesKeepsFirst<T, K>(rows: seq<T>, key: T -> K)
    ensures Distinct(Column(DropDuplicates(rows, key), key))
    ensures forall k :: k in Column(DropDuplicates(rows, key), key) <==> k in Column(rows, key)
    ensures forall i :: 0 <= i < |DropDuplicates(rows, key)| ==>
      DropDuplicates(rows, key)[i] == rows[FirstIndex(Column(rows, key), key(DropDuplicates(rows, key)[i]))]
    ensures forall i, j :: 0 <= i < j < |DropDuplicates(rows, key)| ==>
      FirstIndex(Column(rows, key), key(DropDuplicates(rows, key)[i]))
        < FirstIndex(Column(rows, key), key(DropDuplicates(rows, key)[j]))
  {
    DropDuplicatesKeys(rows, key);
    DropDuplicatesFirstRows(rows, key);
  }

  /** `DropDuplicates` keeps each key of the input exactly once. */
  lemma {:induction false} DropDuplicatesKeys<T, K>(rows: seq<T>, key: T -> K)
    ensures Distinct(Column(DropDuplicates(rows, key), key))
    ensures forall k :: k in Column(DropDuplicates(rows, key), key) <==> k in Column(rows, key)
    decreases |rows|
  {
    if |rows| > 0 {
      var n := |rows| - 1;
      var init := rows[..n];
      var last := rows[n];
      var kept := DropDuplicates(init, key);
      DropDuplicatesKeys(init, key);
      ColumnPrefix(rows, key, n);
      var ki := Column(init, key);
      var kk := Column(kept, key);
      assert Distinct(kk);
      assert Column(rows, key) == ki + [key(last)];
      if key(last) in ki {
        assert DropDuplicates(rows, key) == kept;
      } else {
        assert DropDuplicates(rows, key) == kept + [last];
        ColumnAppend(kept, [last], key);
        assert Column(kept + [last], key) == kk + [key(last)];
        assert key(last) in kk ==> key(last) in ki;
        assert key(last) !in kk;
        forall i, j | 0 <= i < j < |kk| + 1
          ensures (kk + [key(last)])[i] != (kk + [key(last)])[j]
        {
          if j == |kk| {
            assert (kk + [key(last)])[i] == kk[i];
          } else {
            assert (kk + [key(last)])[i] == kk[i] && (kk + [key(last)])[j] == kk[j];
          }
        }
      }
    }
  }

  /**
   * Each row `DropDuplicates` keeps is the first input row with its key, and
   * kept rows appear in the order of those first occurrences.
   */
  lemma {:induction false} DropDuplicatesFirstRows<T, K>(rows: seq<T>, key: T -> K)
    ensures forall k :: k in Column(DropDuplicates(rows, key), key) ==> k in Column(rows, key)
    ensures forall i :: 0 <= i < |DropDuplicates(rows, key)| ==>
      DropDuplicates(rows, key)[i] == rows[FirstIndex(Column(rows, key), key(DropDuplicates(rows, key)[i]))]
    ensures forall i, j :: 0 <= i < j < |DropDuplicates(rows, key)| ==>
      FirstIndex(Column(rows, key), key(DropDuplicates(rows, key)[i]))
        < FirstIndex(Column(rows, key), key(DropDuplicates(rows, key)[j]))
    decreases |rows|
  {
    DropDuplicatesKeys(rows, key);
    if |rows| == 0 {
      return;
    }
    var n := |rows| - 1;
    var init := rows[..n];
    var last := rows[n];
    var kept := DropDuplicates(init, key);
    DropDuplicatesFirstRows(init, key);
    DropDuplicatesKeys(init, key);
    var ks := Column(rows, key);
    var ki := Column(init, key);
    ColumnPrefix(rows, key, n);
    assert ks == ki + [key(last)];
    forall k | k in ki
      ensures k in ks && FirstIndex(ks, k) == FirstIndex(ki, k)
    {
      FirstIndexAppend(ki, [key(last)], k);
    }
    forall i | 0 <= i < |kept|
      ensures key(kept[i]) in ki
      ensures kept[i] == rows[FirstIndex(ks, key(kept[i]))]
      ensures FirstIndex(ks, key(kept[i])) < n
    {
      assert key(kept[i]) == Column(kept, key)[i];
    }
    if key(last) !in ki {
      FirstIndexIs(ks, key(last), n);
    }
  }

  /** A table whose keys are already distinct is left unchanged. */
  lemma {:induction false} DropDuplicatesOfDistinct<T, K>(rows: seq<T>, key: T -> K)
    requires Distinct(Column(rows, key))
    ensures DropDuplicates(rows, key) == rows
    decreases |rows|
  {
    if |rows| > 0 {
      var n := |rows| - 1;
      ColumnPrefix(rows, key, n);
      DropDuplicatesOfDistinct(rows[..n], key);
      assert key(rows[n]) !in Column(rows[..n], key) by {
        assert forall j :: 0 <= j < n ==> Column(rows, key)[j] != Column(rows, key)[n];
      }
      assert rows == rows[..n] + [rows[n]];
    }
  }
}

=== FILE: top_states.dfy ===
/**
 * The ranked bar chart of the 25 states with the highest average new cases
 * after reopening (project_script.py, lines 116-117 and 130-139): the table
 * it plots and the bar colours.
 */
module TopStates {
  import opened Wrappers
  import opened Tables
  import opened Ranking
  import opened Dicts
  import opened Aggregates

  /** Number of bars in the chart. */
  const TopCount: nat := 25

  /** The party string coloured red. */
  const Republican: string := "republican"

  /** A row of `df[['state_name', 'new_case_after', 'after_policy', 'party']]`. */
  datatype OverallRow = OverallRow(
    stateName: Option<string>,
    newCaseAfter: Option<real>,
    afterPolicy: int,
    party: Option<string>)

  /** The two bar colours. */
  datatype Colour = IndianRed | DarkBlue

  function Overall(e: EnrichedRow): OverallRow {
    OverallRow(e.base.stateName, e.newCaseAfter, e.afterPolicy, e.base.party)
  }

  /** The whole row as the duplicate key (`drop_duplicates()` with no subset). */
  function WholeRow(o: OverallRow): OverallRow { o }

  function IsAfterPolicy(o: OverallRow): bool { o.afterPolicy == 1 }

  function NewCaseAfterOf(o: OverallRow): Option<real> { o.newCaseAfter }

  function OverallStateName(o: OverallRow): Option<string> { o.stateName }

  /**
   * The four projected columns with whole-row duplicates dropped, then
   * restricted to rows after the policy date: the frame `nlargest` ranks.
   */
  function Candidates(e: seq<EnrichedRow>): seq<OverallRow> {
    Filter(DropDuplicates(Column(e, Overall), WholeRow), IsAfterPolicy)
  }

  /** A candidate row `nlargest` can pick: its `new_case_after` is known. */
  predicate Eligible(cand: seq<OverallRow>, j: int) {
    Ranked(Column(cand, NewCaseAfterOf), j)
  }

  /**
   * `nlargest(25, 'new_case_after')` over the candidates: at most 25 rows,
   * each an after-policy candidate with a known value, listed by
   * non-increasing value; every eligible candidate left out ranks below every
   * row taken (smaller value, or equal value and later position); fewer than
   * 25 rows only when every eligible candidate is taken. `pos` gives each
   * row's position among the candidates. pandas keeps the original index
   * labels instead, which run in the same order, because dropping duplicates
   * and masking both keep row order.
   * When no row with a missing state name has a known `new_case_after` (as
   * `Enrich` guarantees), every bar has a state name.
   */
  method Top25(e: seq<EnrichedRow>) returns (top: seq<OverallRow>, pos: seq<nat>)
    ensures |top| == |pos| <= TopCount
    ensures forall k :: 0 <= k < |top| ==>
      Eligible(Candidates(e), pos[k]) && top[k] == Candidates(e)[pos[k]]
    ensures forall k :: 0 <= k < |top| ==> top[k].afterPolicy == 1 && top[k].newCaseAfter.Some?
    ensures forall k, l :: 0 <= k < l < |top| ==>
      top[k].newCaseAfter.value >= top[l].newCaseAfter.value
    ensures forall k, l :: 0 <= k < l < |top| ==> Outranks(Column(Candidates(e), NewCaseAfterOf), pos[k], pos[l])
    ensures forall k, j :: 0 <= k < |top| && Eligible(Candidates(e), j) && j !in pos ==>
      Outranks(Column(Candidates(e), NewCaseAfterOf), pos[k], j)
    ensures |top| < TopCount ==> forall j :: Eligible(Candidates(e), j) ==> j in pos
    ensures (forall i :: 0 <= i < |e| && e[i].newCaseAfter.Some? ==> e[i].base.stateName.Some?) ==>
      forall k :: 0 <= k < |top| ==> top[k].stateName.Some?
  {
    var overall := Column(e, Overall);
    var cand := Candidates(e);
    var vals := Column(cand, NewCaseAfterOf);
    pos := NLargest(vals, TopCount);
    top := seq(|pos|, k requires 0 <= k < |pos| => cand[pos[k]]);
    forall k | 0 <= k < |top|
      ensures top[k].afterPolicy == 1 && top[k].newCaseAfter.Some?
    {
      assert cand[pos[k]] in cand;
      assert vals[pos[k]] == cand[pos[k]].newCaseAfter;
    }
    if forall i :: 0 <= i < |e| && e[i].newCaseAfter.Some? ==> e[i].base.stateName.Some? {
      forall k | 0 <= k < |top|
        ensures top[k].stateName.Some?
      {
        assert top[k] in cand;
        assert top[k] in DropDuplicates(overall, WholeRow);
        DropDuplicatesKeepsFirst(overall, WholeRow);
        var x :| 0 <= x < |DropDuplicates(overall, WholeRow)| && DropDuplicates(overall, WholeRow)[x] == top[k];
        var y := FirstIndex(Column(overall, WholeRow), WholeRow(top[k]));
        assert overall[y] == Overall(e[y]);
      }
    }
  }

  /** The bar colour of a party: red exactly for the string "republican". */
  function PartyColour(party: Option<string>): Colour {
    if party == Some(Republican) then IndianRed else DarkBlue
  }

  /** The `(state_name, party)` pairs zipped from the chart's rows. */
  function StatePartyPairs(top: seq<OverallRow>): seq<(Option<string>, Option<string>)> {
    seq(|top|, i requires 0 <= i < |top| => (top[i].stateName, top[i].party))
  }

  /**
   * `bar_by_party`'s colour list: a dict from state name to party built from
   * the rows, then one colour per dict value, in dict order.
   */
  function BarColours(top: seq<OverallRow>): seq<Colour> {
    var d := FromPairs(StatePartyPairs(top));
    seq(|d|, i requires 0 <= i < |d| => PartyColour(d[i].1))
  }

  /**
   * There is one colour per distinct state name, in order of first appearance;
   * a colour is red exactly when the party of that state's last row is
   * "republican", and blue for any other party, including a missing one.
   */
  lemma BarColoursSpec(top: seq<OverallRow>)
    ensures |BarColours(top)| == |DropDuplicates(StatePartyPairs(top), EntryKey)|
    ensures forall i :: 0 <= i < |BarColours(top)| ==>
      DropDuplicates(StatePartyPairs(top), EntryKey)[i].0 in Column(StatePartyPairs(top), EntryKey)
      && (BarColours(top)[i] == IndianRed <==>
            LastValue(StatePartyPairs(top), DropDuplicates(StatePartyPairs(top), EntryKey)[i].0) == Some(Republican))
  {
    var pairs := StatePartyPairs(top);
    var d := FromPairs(pairs);
    var u := DropDuplicates(pairs, EntryKey);
    FromPairsKeys(pairs);
    FromPairsValues(pairs);
    assert |Column(d, EntryKey)| == |Column(u, EntryKey)|;
    forall i | 0 <= i < |d|
      ensures u[i].0 == d[i].0
    {
      assert Column(d, EntryKey)[i] == Column(u, EntryKey)[i];
    }
  }

  /**
   * When no state name repeats among the rows, the colours line up with the
   * bars: the i-th colour is the colour of the i-th row's party.
   */
  lemma BarColoursAligned(top: seq<OverallRow>)
    requires Distinct(Column(top, OverallStateName))
    ensures |BarColours(top)| == |top|
    ensures forall i :: 0 <= i < |top| ==>
      (BarColours(top)[i] == IndianRed <==> top[i].party == Some(Republican))
  {
    var pairs := StatePartyPairs(top);
    assert Column(pairs, EntryKey) == Column(top, OverallStateName);
    FromDistinctPairs(pairs);
  }

  /**
   * The chart pipeline from the unified table: derived columns, the top-25
   * table and its colours. Every bar has a known state name and there is one
   * colour per distinct state name.
   */
  method TopStatesChart(t: seq<CaseRow>) returns (top: seq<OverallRow>, colours: seq<Colour>)
    ensures |top| <= TopCount
    ensures forall k :: 0 <= k < |top| ==> top[k].stateName.Some? && top[k].afterPolicy == 1
    ensures |colours| == |DropDuplicates(StatePartyPairs(top), EntryKey)|
  {
    var e := Enrich(t);
    NewCaseAfterNeedsState(t, e);
    var pos;
    top, pos := Top25(e);
    colours := BarColours(top);
    BarColoursSpec(top);
  }
}

=== FILE: wrappers.dfy ===
/** Nullable values: a pandas cell that may hold NaN / NaT / None. */
module Wrappers {

  /** A cell value, or the missing marker (NaN, NaT or None in the frame). */
  datatype Option<+T> = None | Some(value: T)
}
